=== FILE: README.md ===
# football-predictor-bot, modelled in Dafny

This project models the data core of a football-prediction Discord bot that
uses the apifootball.com v3 API:

- **Ingestion** (`fetch_all_season_data`): the 2023-08-01 .. 2024-05-31
  Premier League season is cut into calendar-month chunks. Each chunk is
  queried once. A failed query yields nothing, and the results are joined in
  chunk order. Modelled in the `Season` and `Calendar` modules.
- **Feature engineering** (`extract_features`): there is one labelled row per
  distinct match id among usable events, in the order of first usable
  occurrence. A row holds:
  - each team's win count over its recent window (`calculate_form`, module
    `Form`);
  - the league standing of each team, 20 when unknown (module `Standings`);
  - the head-to-head wins over the whole event list (`calculate_h2h_record`,
    module `HeadToHead`);
  - the result label 1 / 0 / -1.

  Modelled in `Features`.
- **The `/result` reply** (`format_match_result` and the handler's choice of
  the latest match): a five-line text report, with the error text whenever
  `int()` would raise. Modelled in `MatchReport`.

Every event, match and standings record is a `map<string, string>` (module
`Records`). The head-to-head reply object is a `map<string, seq<Record>>`.
- `.get(key, default)` is `Records.Get`.
- `.get(key) == value` is `Records.Is`; an absent key never matches.
- `str.isdigit()` is a non-empty string of ASCII digits, and `int()` on such a
  string is `Records.ParseDigits`.

The network exchanges become parameters:
- the standings fetch is the list `standingsData`, empty when the fetch failed;
- the recent-match fetch is a function `recent(team)`;
- each date-range query is `fetch(first, last)`, a `Response` (a status with a
  decoded body, or a raised exception);
- the head-to-head fetch is `resp`, which is None when the fetch failed or
  the decoded reply is not an object.

## Model

| member | source | states |
|---|---|---|
| Form.MatchOutcome | data_pipeline/build_features.py:45-70 | One match's classification, branch for branch. Its contract is Form.ClassifyByGoals: counted exactly when the team is on a side and both scores are digit strings, then win, draw or loss by comparing goals, with the home side taking precedence. |
| Form.CalculateForm | data_pipeline/build_features.py:41-72 | The counting loop never counts a match twice: wins + draws + losses is at most the window length. |
| Form.FormCountsOutcomes | data_pipeline/build_features.py:45-70 | Each of wins, draws and losses is the number of matches in the window classified that way. Every match is counted in exactly one of the three or in none. |
| Form.ClassifyByGoals | data_pipeline/build_features.py:46-70 | A match counts exactly when the team is on a side and both scores are digit strings. It is then a win, draw or loss exactly as the team's goals compare with the opponent's. Home takes precedence when both ids match. |
| Form.UncountedMatchIsIgnored | data_pipeline/build_features.py:45-71 | Inserting a match the team did not play, or one with a non-digit score, anywhere in the window leaves the form unchanged. |
| Form.FormOfOpponentsMirror | data_pipeline/build_features.py:46-70 | Over meetings of two distinct teams, one team's wins are the other's losses, and their draws agree. |
| Form.MissingScoreCountsAsGoalless | data_pipeline/build_features.py:48-51 | Missing score fields default to "0", so such a match is a draw. Present but empty scores are not counted. |
| Form.WindowOfThree | data_pipeline/build_features.py:41-72 | A home 2-1 win, an away 0-3 loss and a "?" match give (1, 0, 1). |
| HeadToHead.EventOutcome | data_pipeline/build_features.py:79-99 | One event's head-to-head classification. Its contract is HeadToHead.WinGoesToScorer: for distinct teams, a scored meeting goes to the named team with more goals, or is a draw when the goals are level. HeadToHead.TotalIsQualifyingMeetings shows that every other event is ignored. |
| HeadToHead.CalculateH2H | data_pipeline/build_features.py:74-101 | An event adds to at most one of the three counts. |
| HeadToHead.H2HCountsOutcomes | data_pipeline/build_features.py:78-99 | Each count is the number of events classified as first-won, second-won or drawn. |
| HeadToHead.TotalIsQualifyingMeetings | data_pipeline/build_features.py:79-99 | The three counts add up to the number of scored meetings of the pair, in either orientation. Every other event is ignored. |
| HeadToHead.WinGoesToScorer | data_pipeline/build_features.py:87-99 | For distinct teams, a scored meeting is credited to the named team with more goals, whichever side it played on. It is a draw exactly when the goals are level. |
| HeadToHead.Symmetric | data_pipeline/build_features.py:74-101 | Naming two distinct teams the other way round swaps the two win counts and keeps the draws. |
| Standings.PositionOf | data_pipeline/build_features.py:113-115 | A standings record's position: the parsed digits when present and a digit string, else 20. Its contract is Standings.StandingLookup. |
| Standings.StandingOf | data_pipeline/build_features.py:152-153 | The `.get(team_id, 20)` lookup. Its contract is Standings.StandingLookup: an unlisted team stands 20th, and a listed team has its last listing's position. |
| Standings.BuildStandings | data_pipeline/build_features.py:109-115 | The lookup's keys are exactly the team ids that appear in the standings list, with '' for a missing id. |
| Standings.LastListingWins | data_pipeline/build_features.py:112-115 | When a team is listed more than once, its last listing's position is the one kept. |
| Standings.StandingLookup | data_pipeline/build_features.py:111-115 | An unlisted team, including every team when the fetch came back empty, stands 20th. A listed team has the parsed position of its last listing, or 20 when that position is absent or not a digit string. |
| Standings.SingleListing | data_pipeline/build_features.py:112-115 | One team listed at "4" stands 4th, and any other team stands 20th. |
| Features.Usable | data_pipeline/build_features.py:123-137 | The two skip tests: both team ids present and non-empty, neither score '?', and both scores digit strings. Its contract is Features.FirstUsableIff: an event becomes a row exactly when it is usable and no earlier usable event has its match id. |
| Features.Row | data_pipeline/build_features.py:141-174 | The feature vector for one usable event. Its contract is Features.RowDescribesEvent: the event's team ids, the two win-only forms, the head-to-head wins counted over the whole event list, each team's standing (its last listing's position, or 20 when unlisted), and the sign label. |
| Features.Label | data_pipeline/build_features.py:155-161 | The label is 1, 0 or -1 exactly when home goals are greater than, equal to or less than away goals. |
| Features.EmittedUpTo | data_pipeline/build_features.py:119-139 | The emitted indices are increasing. Each is the first usable occurrence of its match id, and every first usable occurrence is emitted. |
| Features.FirstUsableIff | data_pipeline/build_features.py:129-139 | An event is emitted exactly when it passes every skip test and no earlier usable event has its match id. |
| Features.FirstOccurrenceExists | data_pipeline/build_features.py:122-139 | Every usable event's match id has a first usable occurrence at or before it. |
| Features.EmittedIdsDistinct | data_pipeline/build_features.py:130-139 | No match id is emitted twice. |
| Features.EmittedIdsCover | data_pipeline/build_features.py:122-139 | Every match id of a usable event is emitted. |
| Features.RowCount | data_pipeline/build_features.py:120-139 | There are exactly as many rows as distinct match ids among usable events. |
| Features.EmittedAreFirstOccurrences | data_pipeline/build_features.py:122-139 | Rows follow event order, and an event becomes a row exactly when it is usable and no earlier usable event shares its id. |
| Features.ExtractFeatures | data_pipeline/build_features.py:103-181 | The loop with its processed-id set yields the first-usable-occurrence dataset, with one row per distinct usable match id. A skipped event is not marked as processed. |
| Features.RowDescribesEvent | data_pipeline/build_features.py:141-174 | Each row carries its event's team ids and the sign of home minus away goals. Its forms are the two teams' recent win counts. Its head-to-head wins are the two win counts of the pair over the whole event list. Each team's standing is the position of its last listing, or 20 when it is not listed. |
| Features.DuplicateEventGivesOneRow | data_pipeline/build_features.py:119-139 | The same finished match delivered twice yields one row, labelled a home win. |
| Features.SkippedEventDoesNotBlock | data_pipeline/build_features.py:129-139 | An event skipped for a '?' score does not block a later usable event with the same match id. |
| Calendar.DaysInMonth | data_pipeline/fetch_data.py:60 | A month has 28 to 31 days, and exactly February of a Gregorian leap year has 29. |
| Calendar.BeforeTransitive | data_pipeline/fetch_data.py:53 | Date order is transitive. |
| Calendar.Earlier | data_pipeline/fetch_data.py:60 | `min` of two dates is one of them and is not after either. |
| Calendar.NextDay | data_pipeline/fetch_data.py:55-72 | The forward one-day step, used to state that the loop's chunks are contiguous: it gives a valid, strictly later date. |
| Calendar.PrevDay | data_pipeline/fetch_data.py:60 | Subtracting one day gives a valid, strictly earlier date. |
| Calendar.StepsInverse | data_pipeline/fetch_data.py:55-72 | Subtracting one day (line 60) and the forward step used for contiguity undo each other. |
| Calendar.StepsAreAdjacent | data_pipeline/fetch_data.py:55-72 | No valid date lies strictly between a date and the next or previous day, so contiguous chunks skip no day. |
| Calendar.NextMonthStart | data_pipeline/fetch_data.py:55-58 | The `replace` branch gives the first day of the next month, with December rolling into January of the next year. It is strictly later, and the month index advances by one. |
| Calendar.DayBeforeNextMonth | data_pipeline/fetch_data.py:55-60 | The day before the next month starts is the current month's last day. |
| Season.MonthChunks | data_pipeline/fetch_data.py:47-72 | The chunk list is empty exactly when the range is empty. It starts at the start date and ends at the end date, and every chunk is a valid range inside one month. |
| Season.ChunksEndAtMonthEnd | data_pipeline/fetch_data.py:53-60 | Only the last chunk is cut short by the end date: every earlier chunk runs to the last day of its month. |
| Season.ChunksStartMonthly | data_pipeline/fetch_data.py:55-72 | Each chunk after the first starts on the first day of the month after the previous chunk's month. |
| Season.ChunksContiguous | data_pipeline/fetch_data.py:55-72 | Each chunk starts the day after the previous one ends, so no day is skipped. |
| Season.ChunksDisjoint | data_pipeline/fetch_data.py:53-72 | Every chunk ends before any later chunk starts, so no day is queried twice. |
| Season.ChunksCover | data_pipeline/fetch_data.py:53-72 | A date lies in some chunk exactly when it is between the start and end dates. |
| Season.SeasonChunks | data_pipeline/fetch_data.py:12-13 | The configured season gives ten chunks, August 2023 to May 2024, with February ending on the 29th. |
| Season.EventsForRange | data_pipeline/fetch_data.py:15-34 | A range query yields the decoded list on status 200 with a list body. Otherwise, including on an exception, it yields an empty list. |
| Season.ConcatAppend | data_pipeline/fetch_data.py:67-68 | Appending a chunk appends its query's events. |
| Season.ConcatMembership | data_pipeline/fetch_data.py:50-72 | An event is collected exactly when some chunk's query returned it. |
| Season.FetchAllSeasonData | data_pipeline/fetch_data.py:36-72 | The loop visits exactly the month chunks, in order, and collects the concatenation of their query results. |
| MatchReport.Verdict | bot.py:53-61 | The result line's text, or none where `int()` raises. Its contract is MatchReport.ErrorExactlyWhenUnparsable together with MatchReport.FiveLines: none exactly when neither score is '?' and one is not a digit string; "Score not available" for a '?' score; otherwise the team with more goals won, or "Draw" exactly when the goals are level. |
| MatchReport.FormatMatchResult | bot.py:43-69 | The whole report, or the error text. Its contract is MatchReport.ErrorExactlyWhenUnparsable: the error text exactly when a score that is not '?' fails to parse. MatchReport.FiveLines shows that a successful report consists of the five lines. |
| MatchReport.SplitJoin | bot.py:63-67 | Splitting the joined lines on newlines gives the lines back when none holds a newline. |
| MatchReport.RenderIsNotError | bot.py:63-69 | A rendered report is never the error text. |
| MatchReport.RenderSplits | bot.py:63-67 | A rendered report consists of the five report lines when no field holds a newline. |
| MatchReport.AllDefaults | bot.py:46-67 | An empty record renders every default and "Score not available". |
| MatchReport.ErrorExactlyWhenUnparsable | bot.py:45-69 | The answer is the error text exactly when neither score is '?' and one of them is not a digit string. |
| MatchReport.FiveLines | bot.py:53-67 | A successful report has five lines: fixture, date, league, score as given, and verdict. The verdict is "Score not available" when a score is '?'. Otherwise it names the side with more goals, and it is "Draw" exactly when the goals are level. |
| MatchReport.LatestMatch | bot.py:112-119 | The chosen match is the first element of the head-to-head, first-team and second-team lists taken in that order, or none when all are empty. |
| MatchReport.ResultReply | bot.py:101-126 | A failed fetch or an empty object gives "could not fetch". No chosen match, or an empty one, gives "no matches". Otherwise the reply is the formatted chosen match. |
| MatchReport.EmptyFirstMeetingStops | bot.py:114-122 | An empty first head-to-head record stops the handler rather than falling through to the recent results. |

## Left out

- HTTP fetches (`fetch_standings`, `fetch_team_recent_matches`, `fetch_events_for_date_range`'s request, `fetch_team_head_to_head`): they are network I/O. Their outcomes are the parameters described above.
- `recent(team)` is a function, so a team gets the same recent window every time. The source refetches it for every row and may see different answers. Network variation is not modelled.
- `asyncio.sleep` rate limiting, every `print`, the API-key and Discord-token checks, the JSON file writes and reads, and the pandas CSV output: these are timing, logging and file I/O.
- `build_features` and the `__main__` entry points: they only wire the modelled functions to files and the environment.
- The Discord plumbing (`on_ready`, `/predict` with its fixed string, `/sync`, `defer`, `followup.send`): it is framework code with no logic of its own.
- The handler's outer `except` (bot.py:128-129) and JSON values other than strings and lists of string-valued records are not modelled. Only the first non-empty of the three head-to-head fields is indexed. Indexing it raises for a non-zero number, `true` or a non-empty object. A non-empty string or list is indexed without error. A truthy first element goes to `format_match_result`, whose own `try` gives the error text. A falsy first element gives "no matches". A failed send also reaches the outer `except`; sending is Discord plumbing.
- `str.isdigit()` also accepts non-ASCII digit characters. Only ASCII digits are modelled.
- MatchReport.FormatMatchResult: Python's `int()` also accepts surrounding whitespace, a sign and underscores. Here only digit strings parse, so such a score renders as the error text.
- Season.MonthChunks: years are unbounded. Python's `datetime` raises past year 9999, which is not modelled.
- HeadToHead.Symmetric: stated only for two distinct team ids. With equal ids, home wins go to the first count and away wins to the second, so the two win counts are not swapped.
- Form.FormOfOpponentsMirror: stated only for two distinct team ids. With equal ids, the `if`/`elif` classifies every match from the home side, so a home win is a win for both names rather than a win and a loss.
- `train_model.py` and `setup_ml_pipeline.py` are not part of this model. They train and wire the classifier on the produced rows.

=== FILE: calendar.dfy ===
/** Proleptic Gregorian dates, as Python's `datetime` treats them: leap years,
    days per month, lexicographic order, and the one-day steps that
    `timedelta(days=1)` takes. */
module Calendar {

  datatype Date = Date(year: int, month: int, day: int)

  predicate IsLeapYear(y: int)
  {
    y % 4 == 0 && (y % 100 != 0 || y % 400 == 0)
  }

  function DaysInMonth(y: int, m: int): (n: int)
    requires 1 <= m <= 12
    ensures 28 <= n <= 31
    ensures n == 29 <==> m == 2 && IsLeapYear(y)
  {
    if m == 2 then (if IsLeapYear(y) then 29 else 28)
    else if m == 4 || m == 6 || m == 9 || m == 11 then 30
    else 31
  }

  /** A calendar date from year 1 on */
  predicate Valid(d: Date)
  {
    d.year >= 1 && 1 <= d.month <= 12 && 1 <= d.day <= DaysInMonth(d.year, d.month)
  }

  /** Strictly earlier */
  predicate Before(a: Date, b: Date)
  {
    a.year < b.year
    || (a.year == b.year && a.month < b.month)
    || (a.year == b.year && a.month == b.month && a.day < b.day)
  }

  /** Earlier or equal */
  predicate NotAfter(a: Date, b: Date)
  {
    !Before(b, a)
  }

  lemma BeforeTransitive(a: Date, b: Date, c: Date)
    requires NotAfter(a, b) && NotAfter(b, c) && (Before(a, b) || Before(b, c))
    ensures Before(a, c)
  {
  }

  /** `min` on dates */
  function Earlier(a: Date, b: Date): (r: Date)
    ensures r == a || r == b
    ensures NotAfter(r, a) && NotAfter(r, b)
  {
    if Before(b, a) then b else a
  }

  /** The last day of d's month */
  function MonthEnd(d: Date): Date
    requires 1 <= d.month <= 12
  {
    Date(d.year, d.month, DaysInMonth(d.year, d.month))
  }

  /** `d + timedelta(days=1)` */
  function NextDay(d: Date): (r: Date)
    requires Valid(d)
    ensures Valid(r) && Before(d, r)
  {
    if d.day < DaysInMonth(d.year, d.month) then Date(d.year, d.month, d.day + 1)
    else if d.month < 12 then Date(d.year, d.month + 1, 1)
    else Date(d.year + 1, 1, 1)
  }

  /** `d - timedelta(days=1)`; Python raises for the first day of year 1 */
  function PrevDay(d: Date): (r: Date)
    requires Valid(d) && d != Date(1, 1, 1)
    ensures Valid(r) && Before(r, d)
  {
    if d.day > 1 then Date(d.year, d.month, d.day - 1)
    else if d.month > 1 then Date(d.year, d.month - 1, DaysInMonth(d.year, d.month - 1))
    else Date(d.year - 1, 12, 31)
  }

  /** Stepping a day forward and a day back are inverse. */
  lemma StepsInverse(d: Date)
    requires Valid(d)
    ensures PrevDay(NextDay(d)) == d
    ensures d != Date(1, 1, 1) ==> NextDay(PrevDay(d)) == d
  {
  }

  /** There is no valid date strictly between a date and the next day, nor
      between the previous day and a date. */
  lemma StepsAreAdjacent(a: Date, d: Date)
    requires Valid(a) && Valid(d)
    ensures Before(a, d) <==> NotAfter(NextDay(a), d)
    ensures a != Date(1, 1, 1) ==> (Before(d, a) <==> NotAfter(d, PrevDay(a)))
  {
  }

  /** `current_date.replace(...)` in the chunking loop: the first day of the
      following month, December rolling over to January of the next year */
  function NextMonthStart(d: Date): (r: Date)
    requires Valid(d)
    ensures Valid(r) && r.day == 1 && Before(d, r) && r != Date(1, 1, 1)
    ensures MonthIndex(r) == MonthIndex(d) + 1
  {
    if d.month == 12 then Date(d.year + 1, 1, 1) else Date(d.year, d.month + 1, 1)
  }

  /** Months since the start of the era; consecutive months differ by one */
  function MonthIndex(d: Date): int
  {
    d.year * 12 + d.month - 1
  }

  /** The day before the next month starts is the last day of this month, and
      a date is before the next month exactly when it is at most this month's
      last day. */
  lemma DayBeforeNextMonth(c: Date, d: Date)
    requires Valid(c) && Valid(d)
    ensures PrevDay(NextMonthStart(c)) == MonthEnd(c)
    ensures Before(d, NextMonthStart(c)) <==> NotAfter(d, MonthEnd(c))
  {
  }
}

=== FILE: features.dfy ===
/** `extract_features`: one labelled feature row per distinct match id among
    the usable events, in order of first usable occurrence. The two network
    inputs of the source become parameters: `standingsData` is what the
    standings fetch returned (empty on failure) and `recent(team)` is the
    team's recent-match window (limit 10; empty on failure). */
module Features {
  import opened Records
  import Form
  import HeadToHead
  import Standings

  /** One row of the training dataset */
  datatype FeatureVector = FeatureVector(
    homeId: string,
    awayId: string,
    formHome: nat,        // home team's wins in its recent window
    formAway: nat,        // away team's wins in its recent window
    standingHome: nat,
    standingAway: nat,
    h2hHomeWins: nat,
    h2hAwayWins: nat,
    result: int)

  // The `.get` defaults of this call site: '' for ids, '?' for scores.
  function MatchId(e: Record): string { Get(e, MatchIdKey, "") }
  function HomeId(e: Record): string { Get(e, HomeIdKey, "") }
  function AwayId(e: Record): string { Get(e, AwayIdKey, "") }
  function HomeScore(e: Record): string { Get(e, HomeScoreKey, "?") }
  function AwayScore(e: Record): string { Get(e, AwayScoreKey, "?") }

  /** The event passes both skip tests: both team ids present and non-empty,
      neither score the '?' placeholder, both scores digit strings. */
  predicate Usable(e: Record)
  {
    && HomeId(e) != "" && AwayId(e) != ""
    && HomeScore(e) != "?" && AwayScore(e) != "?"
    && IsDigits(HomeScore(e)) && IsDigits(AwayScore(e))
  }

  /** The outcome label: 1 home win, 0 draw, -1 away win */
  function Label(home: nat, away: nat): (r: int)
    ensures r == 1 <==> home > away
    ensures r == 0 <==> home == away
    ensures r == -1 <==> home < away
  {
    if home > away then 1 else if home < away then -1 else 0
  }

  /** The row built for a usable event. Head-to-head runs over the whole event
      list, not over the recent windows; form keeps the win count only. */
  function Row(events: seq<Record>, e: Record, lookup: map<string, nat>,
               recent: string -> seq<Record>): FeatureVector
    requires Usable(e)
  {
    var home, away := HomeId(e), AwayId(e);
    var h2h := HeadToHead.CalculateH2H(events, home, away);
    FeatureVector(
      home, away,
      Form.CalculateForm(recent(home), home).wins,
      Form.CalculateForm(recent(away), away).wins,
      Standings.StandingOf(lookup, home),
      Standings.StandingOf(lookup, away),
      h2h.homeWins, h2h.awayWins,
      Label(ParseDigits(HomeScore(e)), ParseDigits(AwayScore(e))))
  }

  /** Event `i` is usable and no earlier usable event has its match id */
  predicate FirstUsable(events: seq<Record>, i: int)
    requires 0 <= i < |events|
  {
    Usable(events[i]) && MatchId(events[i]) !in UsableIdsUpTo(events, i)
  }

  /** The indices, below `n`, of first usable occurrences, in increasing order */
  function EmittedUpTo(events: seq<Record>, n: nat): (idx: seq<nat>)
    requires n <= |events|
    ensures forall k :: 0 <= k < |idx| ==> idx[k] < n && FirstUsable(events, idx[k])
    ensures forall k, l :: 0 <= k < l < |idx| ==> idx[k] < idx[l]
    ensures forall i :: 0 <= i < n && FirstUsable(events, i) ==> i in idx
  {
    if n == 0 then []
    else EmittedUpTo(events, n - 1) + (if FirstUsable(events, n - 1) then [n - 1] else [])
  }

  /** The events that become rows */
  function Emitted(events: seq<Record>): seq<nat>
  {
    EmittedUpTo(events, |events|)
  }

  function Rows(events: seq<Record>, idx: seq<nat>, lookup: map<string, nat>,
                recent: string -> seq<Record>): seq<FeatureVector>
    requires forall k :: 0 <= k < |idx| ==> idx[k] < |events| && Usable(events[idx[k]])
  {
    seq(|idx|, k requires 0 <= k < |idx| => Row(events, events[idx[k]], lookup, recent))
  }

  /** The dataset, defined by first usable occurrence */
  function Features(events: seq<Record>, standingsData: seq<Record>,
                    recent: string -> seq<Record>): seq<FeatureVector>
  {
    Rows(events, Emitted(events), Standings.BuildStandings(standingsData), recent)
  }

  /** The match ids of the usable events among the first `n` */
  function UsableIdsUpTo(events: seq<Record>, n: nat): set<string>
    requires n <= |events|
  {
    set j | 0 <= j < n && Usable(events[j]) :: MatchId(events[j])
  }

  function UsableIds(events: seq<Record>): set<string>
  {
    UsableIdsUpTo(events, |events|)
  }

  lemma UsableIdsSnoc(events: seq<Record>, n: nat)
    requires n < |events|
    ensures UsableIdsUpTo(events, n + 1)
         == UsableIdsUpTo(events, n) + (if Usable(events[n]) then {MatchId(events[n])} else {})
  {
    var lhs, rhs := UsableIdsUpTo(events, n + 1), UsableIdsUpTo(events, n);
    forall x | x in lhs ensures x in rhs + (if Usable(events[n]) then {MatchId(events[n])} else {}) {
      var j :| 0 <= j < n + 1 && Usable(events[j]) && MatchId(events[j]) == x;
    }
  }

  /** Being a first usable occurrence means that every earlier usable event
      has a different match id. */
  lemma FirstUsableIff(events: seq<Record>, i: nat)
    requires i < |events|
    ensures FirstUsable(events, i) <==>
      Usable(events[i]) && forall j :: 0 <= j < i && Usable(events[j]) ==> MatchId(events[j]) != MatchId(events[i])
  {
    if Usable(events[i]) && MatchId(events[i]) in UsableIdsUpTo(events, i) {
      var j :| 0 <= j < i && Usable(events[j]) && MatchId(events[j]) == MatchId(events[i]);
    }
  }

  lemma RowsSnoc(events: seq<Record>, idx: seq<nat>, i: nat, lookup: map<string, nat>,
                 recent: string -> seq<Record>)
    requires forall k :: 0 <= k < |idx| ==> idx[k] < |events| && Usable(events[idx[k]])
    requires i < |events| && Usable(events[i])
    ensures Rows(events, idx + [i], lookup, recent)
         == Rows(events, idx, lookup, recent) + [Row(events, events[i], lookup, recent)]
  {
  }

  /** What one iteration does to the processed ids and the rows */
  lemma LoopStep(events: seq<Record>, i: nat, lookup: map<string, nat>, recent: string -> seq<Record>)
    requires i < |events|
    ensures FirstUsable(events, i) ==>
      && UsableIdsUpTo(events, i + 1) == UsableIdsUpTo(events, i) + {MatchId(events[i])}
      && Rows(events, EmittedUpTo(events, i + 1), lookup, recent)
         == Rows(events, EmittedUpTo(events, i), lookup, recent) + [Row(events, events[i], lookup, recent)]
    ensures !FirstUsable(events, i) ==>
      && UsableIdsUpTo(events, i + 1) == UsableIdsUpTo(events, i)
      && EmittedUpTo(events, i + 1) == EmittedUpTo(events, i)
  {
    UsableIdsSnoc(events, i);
    if FirstUsable(events, i) {
      RowsSnoc(events, EmittedUpTo(events, i), i, lookup, recent);
    }
  }

  /** The loop over events with its `fixtures_processed` set. An event is
      skipped when its id was already processed or it fails a skip test; a
      skipped event is not recorded as processed. The result is the dataset
      defined by first usable occurrence, with one row per distinct match id
      among usable events. */
  method ExtractFeatures(events: seq<Record>, standingsData: seq<Record>,
                         recent: string -> seq<Record>)
    returns (features: seq<FeatureVector>)
    ensures features == Features(events, standingsData, recent)
    ensures |features| == |UsableIds(events)|
  {
    var lookup := Standings.BuildStandings(standingsData);
    var processed: set<string> := {};
    features := [];
    var i := 0;
    while i < |events|
      invariant 0 <= i <= |events|
      invariant processed == UsableIdsUpTo(events, i)
      invariant features == Rows(events, EmittedUpTo(events, i), lookup, recent)
    {
      var e := events[i];
      LoopStep(events, i, lookup, recent);
      if MatchId(e) in processed || HomeId(e) == "" || AwayId(e) == ""
         || HomeScore(e) == "?" || AwayScore(e) == "?" {
      } else if !(IsDigits(HomeScore(e)) && IsDigits(AwayScore(e))) {
      } else {
        processed := processed + {MatchId(e)};
        features := features + [Row(events, e, lookup, recent)];
      }
      i := i + 1;
    }
    RowCount(events);
  }

  /** Every usable match id has a first usable occurrence at or before any of
      its usable occurrences. */
  lemma {:induction false} FirstOccurrenceExists(events: seq<Record>, j: int)
    requires 0 <= j < |events| && Usable(events[j])
    ensures exists i :: 0 <= i <= j && FirstUsable(events, i) && MatchId(events[i]) == MatchId(events[j])
    decreases j
  {
    if !FirstUsable(events, j) {
      assert MatchId(events[j]) in UsableIdsUpTo(events, j);
      var j' :| 0 <= j' < j && Usable(events[j']) && MatchId(events[j']) == MatchId(events[j]);
      FirstOccurrenceExists(events, j');
    }
  }

  /** No match id is emitted twice: the emitted events have pairwise distinct
      match ids. */
  lemma EmittedIdsDistinct(events: seq<Record>)
    ensures var idx := Emitted(events);
      forall k, l :: 0 <= k < l < |idx| ==> MatchId(events[idx[k]]) != MatchId(events[idx[l]])
  {
    var idx := Emitted(events);
    forall k, l | 0 <= k < l < |idx| ensures MatchId(events[idx[k]]) != MatchId(events[idx[l]]) {
      assert MatchId(events[idx[k]]) in UsableIdsUpTo(events, idx[l]);
    }
  }

  lemma {:induction false} DistinctCard(s: seq<string>)
    requires forall k, l :: 0 <= k < l < |s| ==> s[k] != s[l]
    ensures |set x | x in s| == |s|
  {
    if |s| > 0 {
      DistinctCard(s[1..]);
      assert (set x | x in s) == {s[0]} + (set x | x in s[1..]);
      assert s[0] !in (set x | x in s[1..]);
    }
  }

  /** The match ids of the emitted events, in emission order */
  function EmittedIds(events: seq<Record>): seq<string>
  {
    var idx := Emitted(events);
    seq(|idx|, k requires 0 <= k < |idx| => MatchId(events[idx[k]]))
  }

  /** Every usable match id is emitted */
  lemma EmittedIdsCover(events: seq<Record>)
    ensures (set x | x in EmittedIds(events)) == UsableIds(events)
  {
    var idx := Emitted(events);
    var ids := EmittedIds(events);
    forall x | x in UsableIds(events) ensures x in ids {
      var j :| 0 <= j < |events| && Usable(events[j]) && MatchId(events[j]) == x;
      FirstOccurrenceExists(events, j);
      var i :| 0 <= i <= j && FirstUsable(events, i) && MatchId(events[i]) == x;
      var k :| 0 <= k < |idx| && idx[k] == i;
      assert ids[k] == x;
    }
  }

  /** There are exactly as many emitted events as distinct match ids among
      usable events. */
  lemma RowCount(events: seq<Record>)
    ensures |Emitted(events)| == |UsableIds(events)|
  {
    var ids := EmittedIds(events);
    EmittedIdsDistinct(events);
    assert forall k, l :: 0 <= k < l < |ids| ==> ids[k] != ids[l];
    DistinctCard(ids);
    EmittedIdsCover(events);
  }

  /** Rows come out in event order, and an event becomes a row exactly when it
      is the first usable occurrence of its match id. */
  lemma EmittedAreFirstOccurrences(events: seq<Record>)
    ensures forall i :: 0 <= i < |events| ==>
      (i in Emitted(events) <==>
        Usable(events[i]) && forall j :: 0 <= j < i && Usable(events[j]) ==> MatchId(events[j]) != MatchId(events[i]))
    ensures forall k, l :: 0 <= k < l < |Emitted(events)| ==> Emitted(events)[k] < Emitted(events)[l]
  {
    forall i | 0 <= i < |events| {
      FirstUsableIff(events, i);
    }
  }

  /** What each row says about the event it came from: its label is the sign
      of home minus away goals, its forms are win counts of the two teams'
      windows, its head-to-head wins are counted over the whole event list,
      and each standing is the position of the team's last listing, or 20
      for a team missing from the standings. */
  lemma RowDescribesEvent(events: seq<Record>, standingsData: seq<Record>,
                          recent: string -> seq<Record>, k: int)
    requires 0 <= k < |Features(events, standingsData, recent)|
    ensures var e := events[Emitted(events)[k]];
      var row := Features(events, standingsData, recent)[k];
      var h, a := ParseDigits(HomeScore(e)), ParseDigits(AwayScore(e));
      && row.homeId == HomeId(e) && row.awayId == AwayId(e)
      && (row.result == 1 <==> h > a) && (row.result == 0 <==> h == a) && (row.result == -1 <==> h < a)
      && row.formHome == Form.CalculateForm(recent(HomeId(e)), HomeId(e)).wins
      && row.formAway == Form.CalculateForm(recent(AwayId(e)), AwayId(e)).wins
      && row.h2hHomeWins == HeadToHead.CalculateH2H(events, HomeId(e), AwayId(e)).homeWins
      && row.h2hAwayWins == HeadToHead.CalculateH2H(events, HomeId(e), AwayId(e)).awayWins
      && (HomeId(e) !in Standings.ListedTeams(standingsData) ==> row.standingHome == Standings.UnknownPosition)
      && (AwayId(e) !in Standings.ListedTeams(standingsData) ==> row.standingAway == Standings.UnknownPosition)
      && (forall i ::
            (0 <= i < |standingsData| && Standings.TeamKey(standingsData[i]) == HomeId(e)
             && Standings.LastListing(standingsData, i))
            ==> row.standingHome == Standings.PositionOf(standingsData[i]))
      && (forall i ::
            (0 <= i < |standingsData| && Standings.TeamKey(standingsData[i]) == AwayId(e)
             && Standings.LastListing(standingsData, i))
            ==> row.standingAway == Standings.PositionOf(standingsData[i]))
  {
    var e := events[Emitted(events)[k]];
    Standings.StandingLookup(standingsData, HomeId(e));
    Standings.StandingLookup(standingsData, AwayId(e));
  }

  /** The same finished match delivered twice yields a single row, labelled
      as a home win. */
  lemma DuplicateEventGivesOneRow(standingsData: seq<Record>, recent: string -> seq<Record>)
    ensures var e := map[MatchIdKey := "1", HomeIdKey := "A", AwayIdKey := "B",
                         HomeScoreKey := "2", AwayScoreKey := "1"];
      var rows := Features([e, e], standingsData, recent);
      |rows| == 1 && rows[0].result == 1
  {
    var e := map[MatchIdKey := "1", HomeIdKey := "A", AwayIdKey := "B",
                 HomeScoreKey := "2", AwayScoreKey := "1"];
    assert ParseDigits("2") == 2 && ParseDigits("1") == 1;
    assert Usable(e);
    assert FirstUsable([e, e], 0);
    assert MatchId(e) in UsableIdsUpTo([e, e], 1);
    assert !FirstUsable([e, e], 1);
    assert EmittedUpTo([e, e], 1) == [0];
    assert EmittedUpTo([e, e], 2) == [0];
  }

  /** A skipped event is not marked as processed, so a later usable event
      with the same match id still becomes a row. */
  lemma SkippedEventDoesNotBlock()
    ensures Emitted([ map[MatchIdKey := "7", HomeIdKey := "A", AwayIdKey := "B",
                          HomeScoreKey := "?", AwayScoreKey := "?"],
                      map[MatchIdKey := "7", HomeIdKey := "A", AwayIdKey := "B",
                          HomeScoreKey := "0", AwayScoreKey := "3"] ]) == [1]
  {
    var e0 := map[MatchIdKey := "7", HomeIdKey := "A", AwayIdKey := "B",
                  HomeScoreKey := "?", AwayScoreKey := "?"];
    var e1 := map[MatchIdKey := "7", HomeIdKey := "A", AwayIdKey := "B",
                  HomeScoreKey := "0", AwayScoreKey := "3"];
    assert !Usable(e0);
    assert Usable(e1);
    assert !FirstUsable([e0, e1], 0);
    assert UsableIdsUpTo([e0, e1], 1) == {};
    assert FirstUsable([e0, e1], 1);
    assert EmittedUpTo([e0, e1], 1) == [];
    assert EmittedUpTo([e0, e1], 2) == [1];
  }
}

=== FILE: form.dfy ===
/** `calculate_form`: a team's wins, draws and losses over a window of its
    recent matches. Missing score fields default to "0" here. */
module Form {
  import opened Records

  /** How one match counts for the team whose form is computed */
  datatype Outcome = Win | Draw | Loss | NotCounted

  datatype FormCount = FormCount(wins: nat, draws: nat, losses: nat)

  function HomeScore(m: Record): string { Get(m, HomeScoreKey, "0") }
  function AwayScore(m: Record): string { Get(m, AwayScoreKey, "0") }

  /** Both scores, after defaulting, are digit strings */
  predicate Scored(m: Record)
  {
    IsDigits(HomeScore(m)) && IsDigits(AwayScore(m))
  }

  /** The team played this match on one side or the other */
  predicate Involves(m: Record, team: string)
  {
    Is(m, HomeIdKey, team) || Is(m, AwayIdKey, team)
  }

  /** The classification of one match, branch for branch as the loop body does
      it: the home test comes first, the away test is its `elif`. */
  function MatchOutcome(m: Record, team: string): Outcome
  {
    if Is(m, HomeIdKey, team) then
      if Scored(m) then
        var h, a := ParseDigits(HomeScore(m)), ParseDigits(AwayScore(m));
        if h > a then Win else if h == a then Draw else Loss
      else NotCounted
    else if Is(m, AwayIdKey, team) then
      if Scored(m) then
        var h, a := ParseDigits(HomeScore(m)), ParseDigits(AwayScore(m));
        if a > h then Win else if a == h then Draw else Loss
      else NotCounted
    else NotCounted
  }

  /** The per-match classifications of a window, in window order */
  function Outcomes(ms: seq<Record>, team: string): seq<Outcome>
  {
    seq(|ms|, i requires 0 <= i < |ms| => MatchOutcome(ms[i], team))
  }

  function Tally(f: FormCount, o: Outcome): FormCount
  {
    match o
    case Win => f.(wins := f.wins + 1)
    case Draw => f.(draws := f.draws + 1)
    case Loss => f.(losses := f.losses + 1)
    case NotCounted => f
  }

  /** The counting loop, as a left fold over the window: no match is counted
      twice, so the three counts together never exceed the window. */
  function CalculateForm(ms: seq<Record>, team: string): (f: FormCount)
    ensures f.wins + f.draws + f.losses <= |ms|
  {
    if |ms| == 0 then FormCount(0, 0, 0)
    else
      var n := |ms| - 1;
      Tally(CalculateForm(ms[..n], team), MatchOutcome(ms[n], team))
  }

  /** Each count is the number of matches of the window classified that way,
      and every match lands in exactly one of the three counts or in none. */
  lemma {:induction false} FormCountsOutcomes(ms: seq<Record>, team: string)
    ensures var f := CalculateForm(ms, team);
      && f.wins == multiset(Outcomes(ms, team))[Win]
      && f.draws == multiset(Outcomes(ms, team))[Draw]
      && f.losses == multiset(Outcomes(ms, team))[Loss]
      && f.wins + f.draws + f.losses + multiset(Outcomes(ms, team))[NotCounted] == |ms|
  {
    if |ms| > 0 {
      var n := |ms| - 1;
      FormCountsOutcomes(ms[..n], team);
      OutcomesSnoc(ms, team);
    }
  }

  lemma OutcomesSnoc(ms: seq<Record>, team: string)
    requires |ms| > 0
    ensures Outcomes(ms, team) == Outcomes(ms[..|ms| - 1], team) + [MatchOutcome(ms[|ms| - 1], team)]
  {
  }

  lemma OutcomesAppend(a: seq<Record>, b: seq<Record>, team: string)
    ensures Outcomes(a + b, team) == Outcomes(a, team) + Outcomes(b, team)
  {
  }

  /** The goals the team scored and conceded, resolving its side with the home
      side taking precedence, as the `if`/`elif` does. */
  function GoalsFor(m: Record, team: string): nat
    requires Scored(m)
  {
    if Is(m, HomeIdKey, team) then ParseDigits(HomeScore(m)) else ParseDigits(AwayScore(m))
  }

  function GoalsAgainst(m: Record, team: string): nat
    requires Scored(m)
  {
    if Is(m, HomeIdKey, team) then ParseDigits(AwayScore(m)) else ParseDigits(HomeScore(m))
  }

  /** A match is counted exactly when the team is on one side and both scores
      are digit strings; a counted match is a win, draw or loss exactly as the
      team's goals compare with its opponent's. */
  lemma ClassifyByGoals(m: Record, team: string)
    ensures MatchOutcome(m, team) != NotCounted <==> Involves(m, team) && Scored(m)
    ensures Involves(m, team) && Scored(m) ==>
      && (MatchOutcome(m, team) == Win <==> GoalsFor(m, team) > GoalsAgainst(m, team))
      && (MatchOutcome(m, team) == Draw <==> GoalsFor(m, team) == GoalsAgainst(m, team))
      && (MatchOutcome(m, team) == Loss <==> GoalsFor(m, team) < GoalsAgainst(m, team))
  {
  }

  /** Dropping a match that is not counted (team on neither side, or a score
      that is not a digit string) leaves the whole form unchanged: such a match
      is in particular never a loss. */
  lemma {:induction false} UncountedMatchIsIgnored(before: seq<Record>, m: Record, after: seq<Record>, team: string)
    requires !Involves(m, team) || !Scored(m)
    ensures CalculateForm(before + [m] + after, team) == CalculateForm(before + after, team)
  {
    FormCountsOutcomes(before + [m] + after, team);
    FormCountsOutcomes(before + after, team);
    OutcomesAppend(before + [m], after, team);
    OutcomesAppend(before, [m], team);
    OutcomesAppend(before, after, team);
    assert Outcomes([m], team) == [NotCounted];
  }

  function Mirror(o: Outcome): Outcome
  {
    match o
    case Win => Loss
    case Loss => Win
    case Draw => Draw
    case NotCounted => NotCounted
  }

  /** `m` is a match between `a` and `b`, in either orientation */
  predicate Meeting(m: Record, a: string, b: string)
  {
    (Is(m, HomeIdKey, a) && Is(m, AwayIdKey, b)) || (Is(m, HomeIdKey, b) && Is(m, AwayIdKey, a))
  }

  lemma MeetingMirrors(m: Record, a: string, b: string)
    requires a != b && Meeting(m, a, b)
    ensures MatchOutcome(m, a) == Mirror(MatchOutcome(m, b))
  {
  }

  lemma TallyMirror(fa: FormCount, fb: FormCount, o: Outcome)
    requires fa.wins == fb.losses && fa.losses == fb.wins && fa.draws == fb.draws
    ensures Tally(fa, Mirror(o)).wins == Tally(fb, o).losses
    ensures Tally(fa, Mirror(o)).losses == Tally(fb, o).wins
    ensures Tally(fa, Mirror(o)).draws == Tally(fb, o).draws
  {
  }

  /** No match counts the same way for both of its teams: over any window of
      meetings between two distinct teams, one team's wins are the other's
      losses and their draws agree. */
  lemma {:induction false} FormOfOpponentsMirror(ms: seq<Record>, a: string, b: string)
    requires a != b
    requires forall i :: 0 <= i < |ms| ==> Meeting(ms[i], a, b)
    ensures CalculateForm(ms, a).wins == CalculateForm(ms, b).losses
    ensures CalculateForm(ms, a).losses == CalculateForm(ms, b).wins
    ensures CalculateForm(ms, a).draws == CalculateForm(ms, b).draws
  {
    if |ms| > 0 {
      var n := |ms| - 1;
      FormOfOpponentsMirror(ms[..n], a, b);
      assert Meeting(ms[n], a, b);
      MeetingMirrors(ms[n], a, b);
      TallyMirror(CalculateForm(ms[..n], a), CalculateForm(ms[..n], b), MatchOutcome(ms[n], b));
    }
  }

  /** A missing score field defaults to "0", so a home match without scores is
      counted as a 0-0 draw, while a present but empty score is not counted. */
  lemma MissingScoreCountsAsGoalless(team: string)
    ensures CalculateForm([map[HomeIdKey := team]], team) == FormCount(0, 1, 0)
    ensures CalculateForm([map[HomeIdKey := team, HomeScoreKey := "", AwayScoreKey := ""]], team)
         == FormCount(0, 0, 0)
  {
    var m := map[HomeIdKey := team];
    assert MatchOutcome(m, team) == Draw;
    assert Outcomes([m], team) == [Draw];
    var m' := map[HomeIdKey := team, HomeScoreKey := "", AwayScoreKey := ""];
    assert !IsDigits(m'[HomeScoreKey]);
    assert Outcomes([m'], team) == [NotCounted];
  }

  /** A home 2-1 win, an away 0-3 defeat and a match of unknown score give one
      win, one loss and nothing for the third match. */
  lemma WindowOfThree()
    ensures CalculateForm(
      [ map[HomeIdKey := "X", AwayIdKey := "Y", HomeScoreKey := "2", AwayScoreKey := "1"],
        map[HomeIdKey := "Z", AwayIdKey := "X", HomeScoreKey := "3", AwayScoreKey := "0"],
        map[HomeIdKey := "X", AwayIdKey := "W", HomeScoreKey := "?", AwayScoreKey := "?"] ],
      "X") == FormCount(1, 0, 1)
  {
    var m0 := map[HomeIdKey := "X", AwayIdKey := "Y", HomeScoreKey := "2", AwayScoreKey := "1"];
    var m1 := map[HomeIdKey := "Z", AwayIdKey := "X", HomeScoreKey := "3", AwayScoreKey := "0"];
    var m2 := map[HomeIdKey := "X", AwayIdKey := "W", HomeScoreKey := "?", AwayScoreKey := "?"];
    assert ParseDigits("2") == 2 && ParseDigits("1") == 1;
    assert ParseDigits("3") == 3 && ParseDigits("0") == 0;
    assert MatchOutcome(m0, "X") == Win;
    assert MatchOutcome(m1, "X") == Loss;
    assert !IsDigitChar(m2[HomeScoreKey][0]);
    assert MatchOutcome(m2, "X") == NotCounted;
    assert Outcomes([m0, m1, m2], "X") == [Win, Loss, NotCounted];
    FormCountsOutcomes([m0, m1, m2], "X");
  }
}

=== FILE: head_to_head.dfy ===
/** `calculate_h2h_record`: the results between one pair of teams over the
    whole event set, credited to the named team that scored more whatever the
    venue. Missing score fields default to "0", as in the form calculator. */
module HeadToHead {
  import opened Records
  import opened Form

  /** How one event counts for the pair (first, second) */
  datatype H2HOutcome = FirstWon | SecondWon | Drawn | Ignored

  /** `(home_wins, away_wins, draws)`: wins of the first-named team, wins of
      the second-named team, and draws */
  datatype H2HRecord = H2HRecord(homeWins: nat, awayWins: nat, draws: nat)

  /** An event between exactly this pair, in either orientation, with both
      scores digit strings */
  predicate Qualifies(e: Record, first: string, second: string)
  {
    Meeting(e, first, second) && Scored(e)
  }

  /** The loop body's classification, branch for branch */
  function EventOutcome(e: Record, first: string, second: string): H2HOutcome
  {
    if Meeting(e, first, second) && Scored(e) then
      var h, a := ParseDigits(HomeScore(e)), ParseDigits(AwayScore(e));
      if h > a then (if Is(e, HomeIdKey, first) then FirstWon else SecondWon)
      else if h < a then (if Is(e, HomeIdKey, first) then SecondWon else FirstWon)
      else Drawn
    else Ignored
  }

  function EventOutcomes(events: seq<Record>, first: string, second: string): seq<H2HOutcome>
  {
    seq(|events|, i requires 0 <= i < |events| => EventOutcome(events[i], first, second))
  }

  function TallyH2H(r: H2HRecord, o: H2HOutcome): H2HRecord
  {
    match o
    case FirstWon => r.(homeWins := r.homeWins + 1)
    case SecondWon => r.(awayWins := r.awayWins + 1)
    case Drawn => r.(draws := r.draws + 1)
    case Ignored => r
  }

  /** The scan over all events, as a left fold; an event adds to at most one
      count. */
  function CalculateH2H(events: seq<Record>, first: string, second: string): (r: H2HRecord)
    ensures r.homeWins + r.awayWins + r.draws <= |events|
  {
    if |events| == 0 then H2HRecord(0, 0, 0)
    else
      var n := |events| - 1;
      TallyH2H(CalculateH2H(events[..n], first, second), EventOutcome(events[n], first, second))
  }

  /** Each count is the number of events classified that way. */
  lemma {:induction false} H2HCountsOutcomes(events: seq<Record>, first: string, second: string)
    ensures var r := CalculateH2H(events, first, second);
      && r.homeWins == multiset(EventOutcomes(events, first, second))[FirstWon]
      && r.awayWins == multiset(EventOutcomes(events, first, second))[SecondWon]
      && r.draws == multiset(EventOutcomes(events, first, second))[Drawn]
  {
    if |events| > 0 {
      H2HCountsOutcomes(events[..|events| - 1], first, second);
      EventOutcomesSnoc(events, first, second);
    }
  }

  lemma EventOutcomesSnoc(events: seq<Record>, first: string, second: string)
    requires |events| > 0
    ensures var n := |events| - 1;
      EventOutcomes(events, first, second)
        == EventOutcomes(events[..n], first, second) + [EventOutcome(events[n], first, second)]
  {
  }

  /** The events between exactly this pair with both scores known, in order */
  function Meetings(events: seq<Record>, first: string, second: string): seq<Record>
  {
    if |events| == 0 then []
    else
      var n := |events| - 1;
      Meetings(events[..n], first, second)
        + (if Qualifies(events[n], first, second) then [events[n]] else [])
  }

  lemma TallyTotal(r: H2HRecord, e: Record, first: string, second: string)
    ensures var t := TallyH2H(r, EventOutcome(e, first, second));
      t.homeWins + t.awayWins + t.draws
        == r.homeWins + r.awayWins + r.draws + (if Qualifies(e, first, second) then 1 else 0)
  {
  }

  /** Every qualifying event is tallied exactly once, and every other event is
      ignored. */
  lemma {:induction false} TotalIsQualifyingMeetings(events: seq<Record>, first: string, second: string)
    ensures var r := CalculateH2H(events, first, second);
      r.homeWins + r.awayWins + r.draws == |Meetings(events, first, second)|
  {
    if |events| > 0 {
      var n := |events| - 1;
      TotalIsQualifyingMeetings(events[..n], first, second);
      var prev := CalculateH2H(events[..n], first, second);
      assert CalculateH2H(events, first, second) == TallyH2H(prev, EventOutcome(events[n], first, second));
      assert |Meetings(events, first, second)|
          == |Meetings(events[..n], first, second)| + (if Qualifies(events[n], first, second) then 1 else 0);
      TallyTotal(prev, events[n], first, second);
    }
  }

  /** For two distinct teams, a qualifying event is credited to the named team
      that scored more, regardless of which side it played on. */
  lemma WinGoesToScorer(e: Record, first: string, second: string)
    requires first != second
    requires Qualifies(e, first, second)
    ensures EventOutcome(e, first, second) == FirstWon <==> GoalsFor(e, first) > GoalsFor(e, second)
    ensures EventOutcome(e, first, second) == SecondWon <==> GoalsFor(e, second) > GoalsFor(e, first)
    ensures EventOutcome(e, first, second) == Drawn <==> GoalsFor(e, first) == GoalsFor(e, second)
  {
  }

  function Swap(o: H2HOutcome): H2HOutcome
  {
    match o
    case FirstWon => SecondWon
    case SecondWon => FirstWon
    case Drawn => Drawn
    case Ignored => Ignored
  }

  lemma SwapOne(e: Record, first: string, second: string)
    requires first != second
    ensures EventOutcome(e, second, first) == Swap(EventOutcome(e, first, second))
  {
  }

  lemma TallySwap(r: H2HRecord, s: H2HRecord, o: H2HOutcome)
    requires s == H2HRecord(r.awayWins, r.homeWins, r.draws)
    ensures TallyH2H(s, Swap(o)) == H2HRecord(TallyH2H(r, o).awayWins, TallyH2H(r, o).homeWins, TallyH2H(r, o).draws)
  {
  }

  /** Naming two distinct teams the other way round swaps their win counts
      and keeps the draws. */
  lemma {:induction false} Symmetric(events: seq<Record>, first: string, second: string)
    requires first != second
    ensures var r := CalculateH2H(events, first, second);
      CalculateH2H(events, second, first) == H2HRecord(r.awayWins, r.homeWins, r.draws)
  {
    if |events| > 0 {
      var n := |events| - 1;
      Symmetric(events[..n], first, second);
      SwapOne(events[n], first, second);
      TallySwap(CalculateH2H(events[..n], first, second), CalculateH2H(events[..n], second, first),
                EventOutcome(events[n], first, second));
    }
  }
}

=== FILE: match_report.dfy ===
/** The bot's `/result` reply: `format_match_result` renders one match as five
    lines of text, and the handler picks which match to render. */
module MatchReport {
  import opened Records

  const DateKey := "match_date"
  const HomeNameKey := "match_hometeam_name"
  const AwayNameKey := "match_awayteam_name"
  const LeagueKey := "league_name"

  const UnknownDate := "Unknown date"
  const UnknownTeam := "Unknown team"
  const UnknownScore := "?"
  const UnknownLeague := "Unknown league"

  const ScoreNotAvailable := "Score not available"
  const Draw := "Draw"
  const FormatError := "Error formatting match result"

  // The line prefixes, with their emoji: calendar, trophy, football, chequered flag.
  const DatePrefix := "\U{1F4C5} Date: "
  const LeaguePrefix := "\U{1F3C6} League: "
  const ScorePrefix := "\U{26BD} Score: "
  const ResultPrefix := "\U{1F3C1} Result: "

  /** `"\n".join(lines)` */
  function Join(lines: seq<string>): string
  {
    if |lines| == 0 then ""
    else if |lines| == 1 then lines[0]
    else lines[0] + "\n" + Join(lines[1..])
  }

  /** `s.split("\n")` */
  function Split(s: string): (lines: seq<string>)
    ensures |lines| > 0
  {
    if |s| == 0 then [""]
    else
      var rest := Split(s[1..]);
      if s[0] == '\n' then [""] + rest
      else [[s[0]] + rest[0]] + rest[1..]
  }

  predicate SingleLine(s: string)
  {
    '\n' !in s
  }

  lemma {:induction false} SplitLine(a: string, b: string)
    requires SingleLine(a)
    ensures Split(a + "\n" + b) == [a] + Split(b)
  {
    if |a| == 0 {
      assert a + "\n" + b == "\n" + b;
      assert ("\n" + b)[1..] == b;
    } else {
      assert (a + "\n" + b)[1..] == a[1..] + "\n" + b;
      SplitLine(a[1..], b);
      assert [a[0]] + a[1..] == a;
    }
  }

  lemma {:induction false} SplitSingle(a: string)
    requires SingleLine(a)
    ensures Split(a) == [a]
  {
    if |a| > 0 {
      SplitSingle(a[1..]);
      assert [a[0]] + a[1..] == a;
    }
  }

  /** Splitting undoes joining when no line holds a newline. */
  lemma {:induction false} SplitJoin(lines: seq<string>)
    requires |lines| > 0
    requires forall i :: 0 <= i < |lines| ==> SingleLine(lines[i])
    ensures Split(Join(lines)) == lines
  {
    if |lines| == 1 {
      SplitSingle(lines[0]);
    } else {
      SplitJoin(lines[1..]);
      SplitLine(lines[0], Join(lines[1..]));
    }
  }

  /** The five lines of a rendered match */
  function ReportLines(home: string, away: string, date: string, league: string,
                       homeScore: string, awayScore: string, verdict: string): seq<string>
  {
    [ "**" + home + " vs " + away + "**",
      DatePrefix + date,
      LeaguePrefix + league,
      ScorePrefix + homeScore + " - " + awayScore,
      ResultPrefix + verdict ]
  }

  /** Python's `int(s)`, with raising as None */
  function ParseScore(s: string): Option<nat>
  {
    if IsDigits(s) then Some(ParseDigits(s)) else None
  }

  /** The fields as `format_match_result` reads them, with their defaults */
  function MatchDate(m: Record): string { Get(m, DateKey, UnknownDate) }
  function HomeName(m: Record): string { Get(m, HomeNameKey, UnknownTeam) }
  function AwayName(m: Record): string { Get(m, AwayNameKey, UnknownTeam) }
  function HomeScore(m: Record): string { Get(m, HomeScoreKey, UnknownScore) }
  function AwayScore(m: Record): string { Get(m, AwayScoreKey, UnknownScore) }
  function League(m: Record): string { Get(m, LeagueKey, UnknownLeague) }

  function Render(m: Record, verdict: string): string
  {
    Join(ReportLines(HomeName(m), AwayName(m), MatchDate(m), League(m), HomeScore(m), AwayScore(m), verdict))
  }

  /** The verdict line's text, or None where `int()` raises: scores are only
      parsed when neither is '?'. */
  function Verdict(m: Record): Option<string>
  {
    var homeScore, awayScore := HomeScore(m), AwayScore(m);
    if homeScore != UnknownScore && awayScore != UnknownScore then
      match (ParseScore(homeScore), ParseScore(awayScore))
      case (Some(h), Some(a)) =>
        Some(if h > a then HomeName(m) + " won" else if a > h then AwayName(m) + " won" else Draw)
      case _ => None
    else Some(ScoreNotAvailable)
  }

  /** `format_match_result`: any exception inside turns the whole answer into
      the error text. */
  function FormatMatchResult(m: Record): string
  {
    match Verdict(m)
    case Some(v) => Render(m, v)
    case None => FormatError
  }

  lemma JoinFirst(lines: seq<string>)
    requires |lines| >= 2
    ensures Join(lines) == lines[0] + "\n" + Join(lines[1..])
  {
  }

  /** A rendered match starts with the bold marker, so it is never the error
      text. */
  lemma RenderIsNotError(m: Record, v: string)
    ensures Render(m, v) != FormatError
  {
    var lines := ReportLines(HomeName(m), AwayName(m), MatchDate(m), League(m), HomeScore(m), AwayScore(m), v);
    JoinFirst(lines);
    assert Render(m, v)[0] == lines[0][0] == '*';
    assert FormatError[0] == 'E';
  }

  /** The five lines come back out of the rendered text when no field holds a
      newline. */
  lemma RenderSplits(m: Record, v: string)
    requires SingleLine(HomeName(m)) && SingleLine(AwayName(m)) && SingleLine(MatchDate(m))
    requires SingleLine(League(m)) && SingleLine(HomeScore(m)) && SingleLine(AwayScore(m))
    requires SingleLine(v)
    ensures Split(Render(m, v))
         == ReportLines(HomeName(m), AwayName(m), MatchDate(m), League(m), HomeScore(m), AwayScore(m), v)
  {
    var lines := ReportLines(HomeName(m), AwayName(m), MatchDate(m), League(m), HomeScore(m), AwayScore(m), v);
    assert SingleLine("**") && SingleLine(" vs ") && SingleLine(" - ");
    assert SingleLine(DatePrefix) && SingleLine(LeaguePrefix);
    assert SingleLine(ScorePrefix) && SingleLine(ResultPrefix);
    SplitJoin(lines);
  }

  /** A record with no fields renders every default. */
  lemma AllDefaults()
    ensures Split(FormatMatchResult(map[])) ==
      ReportLines(UnknownTeam, UnknownTeam, UnknownDate, UnknownLeague,
                  UnknownScore, UnknownScore, ScoreNotAvailable)
  {
    var m: Record := map[];
    assert Verdict(m) == Some(ScoreNotAvailable);
    assert SingleLine(UnknownTeam) && SingleLine(UnknownDate) && SingleLine(UnknownLeague);
    assert SingleLine(UnknownScore) && SingleLine(ScoreNotAvailable);
    RenderSplits(m, ScoreNotAvailable);
  }

  /** The answer is the error text exactly when neither score is '?' and one
      of them is not a digit string. */
  lemma ErrorExactlyWhenUnparsable(m: Record)
    ensures FormatMatchResult(m) == FormatError <==>
      HomeScore(m) != UnknownScore && AwayScore(m) != UnknownScore
      && !(IsDigits(HomeScore(m)) && IsDigits(AwayScore(m)))
  {
    if Verdict(m).Some? {
      RenderIsNotError(m, Verdict(m).value);
    }
  }

  /** On success the answer is five newline-separated lines, when no field
      itself holds a newline: the fixture, the date, the league, the score as
      given, and the verdict. The verdict is "Score not available" when a
      score is '?', and otherwise names the side that scored more, or says
      "Draw" exactly when the scores are level. */
  lemma FiveLines(m: Record)
    requires FormatMatchResult(m) != FormatError
    requires SingleLine(HomeName(m)) && SingleLine(AwayName(m)) && SingleLine(MatchDate(m))
    requires SingleLine(League(m)) && SingleLine(HomeScore(m)) && SingleLine(AwayScore(m))
    ensures var lines := Split(FormatMatchResult(m));
      && |lines| == 5
      && lines[0] == "**" + HomeName(m) + " vs " + AwayName(m) + "**"
      && lines[1] == DatePrefix + MatchDate(m)
      && lines[2] == LeaguePrefix + League(m)
      && lines[3] == ScorePrefix + HomeScore(m) + " - " + AwayScore(m)
      && (HomeScore(m) == UnknownScore || AwayScore(m) == UnknownScore ==>
            lines[4] == ResultPrefix + ScoreNotAvailable)
      && (HomeScore(m) != UnknownScore && AwayScore(m) != UnknownScore ==>
            var h, a := ParseDigits(HomeScore(m)), ParseDigits(AwayScore(m));
            && (h > a ==> lines[4] == ResultPrefix + HomeName(m) + " won")
            && (a > h ==> lines[4] == ResultPrefix + AwayName(m) + " won")
            && (lines[4] == ResultPrefix + Draw <==> h == a))
  {
    ErrorExactlyWhenUnparsable(m);
    var v := Verdict(m).value;
    assert SingleLine(" won") && SingleLine(Draw) && SingleLine(ScoreNotAvailable);
    RenderSplits(m, v);
    if HomeScore(m) != UnknownScore && AwayScore(m) != UnknownScore && v != Draw {
      // a verdict naming a team ends in "n", which "Draw" does not
      assert v[|v| - 1] == 'n';
      assert (ResultPrefix + v)[|ResultPrefix + v| - 1] == 'n';
      assert (ResultPrefix + Draw)[|ResultPrefix + Draw| - 1] == 'w';
    }
  }

  /** The match the handler renders: the first head-to-head meeting, else the
      first recent result of the first team, else of the second team. That is
      the first match of the three lists taken in that order. */
  function LatestMatch(h2h: seq<Record>, firstRecent: seq<Record>, secondRecent: seq<Record>): (r: Option<Record>)
    ensures r == if h2h + firstRecent + secondRecent == [] then None
                 else Some((h2h + firstRecent + secondRecent)[0])
  {
    if h2h != [] then Some(h2h[0])
    else if firstRecent != [] then Some(firstRecent[0])
    else if secondRecent != [] then Some(secondRecent[0])
    else None
  }

  const VersusKey := "firstTeam_VS_secondTeam"
  const FirstRecentKey := "firstTeam_lastResults"
  const SecondRecentKey := "secondTeam_lastResults"

  /** What the `/result` command sends back */
  datatype Reply = CouldNotFetch | NoMatches | Show(text: string)

  function ListOf(d: map<string, seq<Record>>, key: string): seq<Record>
  {
    if key in d then d[key] else []
  }

  /** The handler after the head-to-head fetch. `resp` is the decoded object,
      None when the fetch failed or did not return an object. An empty object
      and an empty chosen match are falsy and stop the handler. */
  function ResultReply(resp: Option<map<string, seq<Record>>>): (reply: Reply)
    ensures reply == CouldNotFetch <==> resp == None || resp == Some(map[])
    ensures reply == NoMatches <==>
      && resp.Some? && resp.value != map[]
      && LatestMatch(ListOf(resp.value, VersusKey), ListOf(resp.value, FirstRecentKey),
                     ListOf(resp.value, SecondRecentKey)) in {None, Some(map[])}
    ensures reply.Show? ==>
      exists m :: LatestMatch(ListOf(resp.value, VersusKey), ListOf(resp.value, FirstRecentKey),
                              ListOf(resp.value, SecondRecentKey)) == Some(m)
                  && m != map[] && reply.text == FormatMatchResult(m)
  {
    match resp
    case None => CouldNotFetch
    case Some(d) =>
      if d == map[] then CouldNotFetch
      else
        match LatestMatch(ListOf(d, VersusKey), ListOf(d, FirstRecentKey), ListOf(d, SecondRecentKey))
        case None => NoMatches
        case Some(m) => if m == map[] then NoMatches else Show(FormatMatchResult(m))
  }

  /** An empty first meeting stops the handler: it does not fall through to
      the teams' recent results. */
  lemma EmptyFirstMeetingStops(recent: seq<Record>)
    ensures ResultReply(Some(map[VersusKey := [map[]], FirstRecentKey := recent])) == NoMatches
  {
    var d := map[VersusKey := [map[]], FirstRecentKey := recent];
    assert ListOf(d, VersusKey) == [map[]];
  }
}

=== FILE: records.dfy ===
/** Provider records. The match-data provider answers with JSON objects whose
    fields are strings; a record is modelled as a string-keyed map so that every
    `.get(key, default)` of the pipeline names its default explicitly. */
module Records {

  type Record = map<string, string>

  datatype Option<+T> = None | Some(value: T)

  // Field names used by the provider's event records.
  const MatchIdKey := "match_id"
  const HomeIdKey := "match_hometeam_id"
  const AwayIdKey := "match_awayteam_id"
  const HomeScoreKey := "match_hometeam_score"
  const AwayScoreKey := "match_awayteam_score"

  /** `r.get(key, default)` */
  function Get(r: Record, key: string, default: string): string
  {
    if key in r then r[key] else default
  }

  /** `r.get(key) == value`: an absent key yields None, which equals no string */
  predicate Is(r: Record, key: string, value: string)
  {
    key in r && r[key] == value
  }

  predicate IsDigitChar(c: char)
  {
    '0' <= c <= '9'
  }

  /** Python's `str.isdigit()`, restricted to ASCII: a non-empty string of digits */
  predicate IsDigits(s: string)
  {
    |s| > 0 && forall i :: 0 <= i < |s| ==> IsDigitChar(s[i])
  }

  /** `int(s)` for a string of decimal digits (leading zeros allowed) */
  function ParseDigits(s: string): nat
    requires forall i :: 0 <= i < |s| ==> IsDigitChar(s[i])
  {
    if |s| == 0 then 0
    else
      assert IsDigitChar(s[|s| - 1]);
      10 * ParseDigits(s[..|s| - 1]) + (s[|s| - 1] as int - '0' as int)
  }
}

=== FILE: season.dfy ===
/** `fetch_all_season_data`: the season's inclusive date range is cut into
    calendar-month chunks, each chunk is queried once, and the per-chunk
    results are concatenated in chunk order. The provider query is a
    parameter `fetch(chunkStart, chunkEnd)` standing for one HTTP exchange. */
module Season {
  import opened Records
  import opened Calendar

  /** `SEASON_START` and `SEASON_END` */
  const SeasonStart := Date(2023, 8, 1)
  const SeasonEnd := Date(2024, 5, 31)

  /** An inclusive range of dates queried in one request */
  datatype Chunk = Chunk(first: Date, last: Date)

  /** A valid range inside one calendar month */
  predicate WithinMonth(c: Chunk)
  {
    && Valid(c.first) && Valid(c.last) && NotAfter(c.first, c.last)
    && c.first.year == c.last.year && c.first.month == c.last.month
  }

  predicate InChunk(c: Chunk, d: Date)
  {
    NotAfter(c.first, d) && NotAfter(d, c.last)
  }

  /** The chunks the loop visits from `current` on. Each chunk ends at the
      earlier of its month's last day and `end`; the next one starts on the
      first of the following month. */
  function MonthChunks(current: Date, end: Date): (cs: seq<Chunk>)
    requires Valid(current) && Valid(end)
    ensures cs == [] <==> Before(end, current)
    ensures cs != [] ==> cs[0].first == current && cs[|cs| - 1].last == end
    ensures forall i :: 0 <= i < |cs| ==> WithinMonth(cs[i])
    ensures forall i :: 0 <= i < |cs| ==> NotAfter(current, cs[i].first)
    decreases if NotAfter(current, end) then MonthIndex(end) - MonthIndex(current) + 1 else 0
  {
    if Before(end, current) then []
    else
      var next := NextMonthStart(current);
      var monthEnd := Earlier(PrevDay(next), end);
      [Chunk(current, monthEnd)] + MonthChunks(next, end)
  }

  /** One iteration of the loop */
  lemma Unfold(current: Date, end: Date)
    requires Valid(current) && Valid(end) && NotAfter(current, end)
    ensures var next := NextMonthStart(current);
      MonthChunks(current, end) == [Chunk(current, Earlier(PrevDay(next), end))] + MonthChunks(next, end)
  {
  }

  /** `b` starts on the first day of the month after the month `a` starts in */
  predicate StartsNextMonth(a: Chunk, b: Chunk)
  {
    Valid(a.first) && b.first == NextMonthStart(a.first) && b.first.day == 1
  }

  /** Every chunk after the first starts on the first day of the month after
      the previous chunk's month. */
  lemma {:induction false} ChunksStartMonthly(current: Date, end: Date)
    requires Valid(current) && Valid(end)
    ensures var cs := MonthChunks(current, end);
      forall i :: 0 <= i < |cs| - 1 ==> StartsNextMonth(cs[i], cs[i + 1])
    decreases if NotAfter(current, end) then MonthIndex(end) - MonthIndex(current) + 1 else 0
  {
    if !Before(end, current) {
      var next := NextMonthStart(current);
      ChunksStartMonthly(next, end);
      Unfold(current, end);
      var cs := MonthChunks(current, end);
      var rest := MonthChunks(next, end);
      forall i | 1 <= i < |cs| - 1 ensures StartsNextMonth(cs[i], cs[i + 1]) {
        assert cs[i] == rest[i - 1] && cs[i + 1] == rest[i];
      }
    }
  }

  /** Consecutive chunks are contiguous: each starts the day after the
      previous one ends. */
  lemma {:induction false} ChunksContiguous(current: Date, end: Date)
    requires Valid(current) && Valid(end)
    ensures var cs := MonthChunks(current, end);
      forall i :: 0 <= i < |cs| - 1 ==> Valid(cs[i].last) && cs[i + 1].first == NextDay(cs[i].last)
    decreases if NotAfter(current, end) then MonthIndex(end) - MonthIndex(current) + 1 else 0
  {
    if !Before(end, current) {
      var next := NextMonthStart(current);
      ChunksContiguous(next, end);
      Unfold(current, end);
      var cs := MonthChunks(current, end);
      var rest := MonthChunks(next, end);
      if rest != [] {
        assert NotAfter(next, end);
        StepsInverse(next);
        assert cs[0].last == PrevDay(next);
      }
      forall i | 1 <= i < |cs| - 1 ensures cs[i + 1].first == NextDay(cs[i].last) {
        assert cs[i] == rest[i - 1] && cs[i + 1] == rest[i];
      }
    }
  }

  /** Only the last chunk is cut short by the end date: every earlier chunk
      runs to the last day of its month. */
  lemma {:induction false} ChunksEndAtMonthEnd(current: Date, end: Date)
    requires Valid(current) && Valid(end)
    ensures var cs := MonthChunks(current, end);
      forall i :: 0 <= i < |cs| - 1 ==> cs[i].last == MonthEnd(cs[i].first)
    decreases if NotAfter(current, end) then MonthIndex(end) - MonthIndex(current) + 1 else 0
  {
    if !Before(end, current) {
      var next := NextMonthStart(current);
      ChunksEndAtMonthEnd(next, end);
      Unfold(current, end);
      var cs := MonthChunks(current, end);
      var rest := MonthChunks(next, end);
      if rest != [] {
        DayBeforeNextMonth(current, end);
        assert cs[0].last == MonthEnd(current);
      }
      forall i | 1 <= i < |cs| - 1 ensures cs[i].last == MonthEnd(cs[i].first) {
        assert cs[i] == rest[i - 1];
      }
    }
  }

  /** Chunks do not overlap: every chunk ends before any later chunk starts. */
  lemma {:induction false} ChunksDisjoint(current: Date, end: Date)
    requires Valid(current) && Valid(end)
    ensures var cs := MonthChunks(current, end);
      forall i, j :: 0 <= i < j < |cs| ==> Before(cs[i].last, cs[j].first)
    decreases if NotAfter(current, end) then MonthIndex(end) - MonthIndex(current) + 1 else 0
  {
    if !Before(end, current) {
      var next := NextMonthStart(current);
      ChunksDisjoint(next, end);
      Unfold(current, end);
      var cs := MonthChunks(current, end);
      var rest := MonthChunks(next, end);
      forall i, j | 0 <= i < j < |cs| ensures Before(cs[i].last, cs[j].first) {
        assert cs[j] == rest[j - 1];
        if i == 0 {
          assert NotAfter(next, rest[j - 1].first);
          DayBeforeNextMonth(current, cs[0].last);
          BeforeTransitive(cs[0].last, next, cs[j].first);
        } else {
          assert cs[i] == rest[i - 1];
        }
      }
    }
  }

  /** Together the chunks cover exactly the dates from `current` to `end`. */
  lemma {:induction false} ChunksCover(current: Date, end: Date, d: Date)
    requires Valid(current) && Valid(end) && Valid(d)
    ensures var cs := MonthChunks(current, end);
      (NotAfter(current, d) && NotAfter(d, end)) <==> exists i :: 0 <= i < |cs| && InChunk(cs[i], d)
    decreases if NotAfter(current, end) then MonthIndex(end) - MonthIndex(current) + 1 else 0
  {
    var cs := MonthChunks(current, end);
    if !Before(end, current) {
      var next := NextMonthStart(current);
      var rest := MonthChunks(next, end);
      ChunksCover(next, end, d);
      Unfold(current, end);
      DayBeforeNextMonth(current, d);
      DayBeforeNextMonth(current, end);
      if NotAfter(current, d) && NotAfter(d, end) {
        if !InChunk(cs[0], d) {
          var i :| 0 <= i < |rest| && InChunk(rest[i], d);
          assert cs[i + 1] == rest[i];
        }
      }
      if exists i :: 0 <= i < |cs| && InChunk(cs[i], d) {
        var i :| 0 <= i < |cs| && InChunk(cs[i], d);
        if i > 0 {
          assert cs[i] == rest[i - 1];
          assert InChunk(rest[i - 1], d);
          assert NotAfter(next, rest[i - 1].first);
          assert NotAfter(current, d);
        } else {
          assert NotAfter(current, d);
        }
      }
    }
  }

  /** One iteration, with the chunk it emits and the chunks after it known */
  lemma StepTo(current: Date, end: Date, last: Date, rest: seq<Chunk>)
    requires Valid(current) && Valid(end) && NotAfter(current, end)
    requires MonthChunks(NextMonthStart(current), end) == rest
    requires Earlier(PrevDay(NextMonthStart(current)), end) == last
    ensures MonthChunks(current, end) == [Chunk(current, last)] + rest
  {
    Unfold(current, end);
  }

  /** The season runs from August 2023 to May 2024: ten monthly chunks, the
      February one ending on the 29th of the leap year 2024. */
  lemma SeasonChunks()
    ensures MonthChunks(SeasonStart, SeasonEnd) == SeasonList()
    ensures |MonthChunks(SeasonStart, SeasonEnd)| == 10
  {
    var e := SeasonEnd;
    var all := SeasonList();
    assert MonthChunks(Date(2024, 6, 1), e) == all[10..];
    assert all[9..] == [Chunk(Date(2024, 5, 1), Date(2024, 5, 31))] + all[10..];
    StepTo(Date(2024, 5, 1), e, Date(2024, 5, 31), all[10..]);
    assert all[8..] == [Chunk(Date(2024, 4, 1), Date(2024, 4, 30))] + all[9..];
    StepTo(Date(2024, 4, 1), e, Date(2024, 4, 30), all[9..]);
    assert all[7..] == [Chunk(Date(2024, 3, 1), Date(2024, 3, 31))] + all[8..];
    StepTo(Date(2024, 3, 1), e, Date(2024, 3, 31), all[8..]);
    assert all[6..] == [Chunk(Date(2024, 2, 1), Date(2024, 2, 29))] + all[7..];
    StepTo(Date(2024, 2, 1), e, Date(2024, 2, 29), all[7..]);
    assert all[5..] == [Chunk(Date(2024, 1, 1), Date(2024, 1, 31))] + all[6..];
    StepTo(Date(2024, 1, 1), e, Date(2024, 1, 31), all[6..]);
    assert all[4..] == [Chunk(Date(2023, 12, 1), Date(2023, 12, 31))] + all[5..];
    StepTo(Date(2023, 12, 1), e, Date(2023, 12, 31), all[5..]);
    assert all[3..] == [Chunk(Date(2023, 11, 1), Date(2023, 11, 30))] + all[4..];
    StepTo(Date(2023, 11, 1), e, Date(2023, 11, 30), all[4..]);
    assert all[2..] == [Chunk(Date(2023, 10, 1), Date(2023, 10, 31))] + all[3..];
    StepTo(Date(2023, 10, 1), e, Date(2023, 10, 31), all[3..]);
    assert all[1..] == [Chunk(Date(2023, 9, 1), Date(2023, 9, 30))] + all[2..];
    StepTo(Date(2023, 9, 1), e, Date(2023, 9, 30), all[2..]);
    assert all[0..] == [Chunk(Date(2023, 8, 1), Date(2023, 8, 31))] + all[1..];
    StepTo(Date(2023, 8, 1), e, Date(2023, 8, 31), all[1..]);
  }

  /** The expected chunks of the 2023-24 season */
  function SeasonList(): seq<Chunk>
  {
    [ Chunk(Date(2023, 8, 1), Date(2023, 8, 31)),
      Chunk(Date(2023, 9, 1), Date(2023, 9, 30)),
      Chunk(Date(2023, 10, 1), Date(2023, 10, 31)),
      Chunk(Date(2023, 11, 1), Date(2023, 11, 30)),
      Chunk(Date(2023, 12, 1), Date(2023, 12, 31)),
      Chunk(Date(2024, 1, 1), Date(2024, 1, 31)),
      Chunk(Date(2024, 2, 1), Date(2024, 2, 29)),
      Chunk(Date(2024, 3, 1), Date(2024, 3, 31)),
      Chunk(Date(2024, 4, 1), Date(2024, 4, 30)),
      Chunk(Date(2024, 5, 1), Date(2024, 5, 31)) ]
  }

  /** The decoded body of a provider response */
  datatype Payload = JsonList(items: seq<Record>) | JsonOther

  /** One provider exchange: an HTTP status with its body, or an exception
      (connection failure, undecodable body) */
  datatype Response = Reply(status: int, body: Payload) | Raised

  /** `fetch_events_for_date_range`: the payload when the status is 200 and
      the body is a list, and otherwise an empty list, never an error. */
  function EventsForRange(r: Response): (events: seq<Record>)
    ensures events == [] || r == Reply(200, JsonList(events))
    ensures r.Reply? && r.status == 200 && r.body.JsonList? ==> events == r.body.items
  {
    match r
    case Reply(status, body) =>
      if status == 200 && body.JsonList? then body.items else []
    case Raised => []
  }

  /** The per-chunk results joined in chunk order */
  function Concat(cs: seq<Chunk>, fetch: (Date, Date) -> Response): seq<Record>
  {
    if cs == [] then []
    else EventsForRange(fetch(cs[0].first, cs[0].last)) + Concat(cs[1..], fetch)
  }

  lemma {:induction false} ConcatAppend(cs: seq<Chunk>, c: Chunk, fetch: (Date, Date) -> Response)
    ensures Concat(cs + [c], fetch) == Concat(cs, fetch) + EventsForRange(fetch(c.first, c.last))
  {
    if cs != [] {
      assert (cs + [c])[1..] == cs[1..] + [c];
      ConcatAppend(cs[1..], c, fetch);
    }
  }

  /** An event is collected exactly when some chunk's query returned it; a
      chunk whose query failed contributes nothing. */
  lemma {:induction false} ConcatMembership(cs: seq<Chunk>, fetch: (Date, Date) -> Response, e: Record)
    ensures e in Concat(cs, fetch) <==>
      exists i :: 0 <= i < |cs| && e in EventsForRange(fetch(cs[i].first, cs[i].last))
  {
    if cs != [] {
      ConcatMembership(cs[1..], fetch, e);
      if e in Concat(cs[1..], fetch) {
        var i :| 0 <= i < |cs[1..]| && e in EventsForRange(fetch(cs[1..][i].first, cs[1..][i].last));
        assert cs[i + 1] == cs[1..][i];
      }
      if exists i :: 0 <= i < |cs| && e in EventsForRange(fetch(cs[i].first, cs[i].last)) {
        var i :| 0 <= i < |cs| && e in EventsForRange(fetch(cs[i].first, cs[i].last));
        if i > 0 {
          assert cs[1..][i - 1] == cs[i];
        }
      }
    }
  }

  lemma LoopStep(done: seq<Chunk>, current: Date, end: Date)
    requires Valid(current) && Valid(end) && NotAfter(current, end)
    ensures var next := NextMonthStart(current);
      && done + [Chunk(current, Earlier(PrevDay(next), end))] + MonthChunks(next, end)
         == done + MonthChunks(current, end)
      && MonthIndex(current) <= MonthIndex(end)
  {
    Unfold(current, end);
  }

  /** The ingestion loop. It visits the month chunks from the season start to
      the season end, queries each once, and appends whatever the query
      yielded, carrying on after a failed query. */
  method FetchAllSeasonData(start: Date, end: Date, fetch: (Date, Date) -> Response)
    returns (chunks: seq<Chunk>, allEvents: seq<Record>)
    requires Valid(start) && Valid(end)
    ensures chunks == MonthChunks(start, end)
    ensures allEvents == Concat(chunks, fetch)
  {
    chunks, allEvents := [], [];
    var current := start;
    while NotAfter(current, end)
      invariant Valid(current)
      invariant chunks + MonthChunks(current, end) == MonthChunks(start, end)
      invariant allEvents == Concat(chunks, fetch)
      decreases if NotAfter(current, end) then MonthIndex(end) - MonthIndex(current) + 1 else 0
    {
      var nextMonth;
      if current.month == 12 {
        nextMonth := Date(current.year + 1, 1, 1);
      } else {
        nextMonth := Date(current.year, current.month + 1, 1);
      }
      assert nextMonth == NextMonthStart(current);
      var monthEnd := Earlier(PrevDay(nextMonth), end);
      var events := EventsForRange(fetch(current, monthEnd));
      var chunk := Chunk(current, monthEnd);
      LoopStep(chunks, current, end);
      ConcatAppend(chunks, chunk, fetch);
      allEvents := allEvents + events;
      chunks := chunks + [chunk];
      current := nextMonth;
    }
  }
}

=== FILE: standings.dfy ===
/** The standings lookup built at the start of `extract_features`: team id to
    league position, with 20 standing in for every unknown position. */
module Standings {
  import opened Records

  const TeamIdKey := "team_id"
  const PositionKey := "overall_league_position"

  /** The position assumed for a team whose position is unknown */
  const UnknownPosition: nat := 20

  /** `team.get('team_id', '')` */
  function TeamKey(r: Record): string
  {
    Get(r, TeamIdKey, "")
  }

  /** `int(position) if str(position).isdigit() else 20`, where a missing
      position is the integer 20 itself */
  function PositionOf(r: Record): nat
  {
    if PositionKey in r && IsDigits(r[PositionKey]) then ParseDigits(r[PositionKey])
    else UnknownPosition
  }

  /** The team ids named by the standings records (`''` for a record without one) */
  function ListedTeams(data: seq<Record>): set<string>
  {
    set i | 0 <= i < |data| :: TeamKey(data[i])
  }

  /** No later standings record names the same team as record `i` */
  predicate LastListing(data: seq<Record>, i: int)
    requires 0 <= i < |data|
  {
    forall j :: i < j < |data| ==> TeamKey(data[j]) != TeamKey(data[i])
  }

  /** The dictionary filled by the standings loop: exactly one key per
      listed team. */
  function BuildStandings(data: seq<Record>): (lookup: map<string, nat>)
    ensures lookup.Keys == ListedTeams(data)
  {
    if |data| == 0 then map[]
    else
      var n := |data| - 1;
      ListedTeamsSnoc(data);
      BuildStandings(data[..n])[TeamKey(data[n]) := PositionOf(data[n])]
  }

  /** A team listed more than once keeps the position of its last listing:
      later assignments overwrite earlier ones. */
  lemma {:induction false} LastListingWins(data: seq<Record>, i: int)
    requires 0 <= i < |data| && LastListing(data, i)
    ensures BuildStandings(data)[TeamKey(data[i])] == PositionOf(data[i])
  {
    var n := |data| - 1;
    if i < n {
      assert LastListing(data[..n], i) by {
        forall j | i < j < n ensures TeamKey(data[..n][j]) != TeamKey(data[..n][i]) {
          assert data[..n][j] == data[j];
        }
      }
      LastListingWins(data[..n], i);
      assert TeamKey(data[n]) != TeamKey(data[i]);
      assert data[..n][i] == data[i];
    }
  }

  lemma ListedTeamsSnoc(data: seq<Record>)
    requires |data| > 0
    ensures ListedTeams(data) == ListedTeams(data[..|data| - 1]) + {TeamKey(data[|data| - 1])}
  {
    var n := |data| - 1;
    forall t | t in ListedTeams(data)
      ensures t in ListedTeams(data[..n]) + {TeamKey(data[n])}
    {
      var i :| 0 <= i < |data| && TeamKey(data[i]) == t;
      if i < n {
        assert TeamKey(data[..n][i]) == t;
      }
    }
    forall t | t in ListedTeams(data[..n])
      ensures t in ListedTeams(data)
    {
      var i :| 0 <= i < n && TeamKey(data[..n][i]) == t;
      assert TeamKey(data[i]) == t;
    }
  }

  /** `standings_lookup.get(team_id, 20)` */
  function StandingOf(lookup: map<string, nat>, team: string): nat
  {
    if team in lookup then lookup[team] else UnknownPosition
  }

  /** A team's standing is the position of its last listing, or 20 when no
      record lists it (in particular when the standings fetch came back
      empty); a listed position that is not a digit string also gives 20. */
  lemma StandingLookup(data: seq<Record>, team: string)
    ensures team !in ListedTeams(data) ==> StandingOf(BuildStandings(data), team) == UnknownPosition
    ensures forall i :: 0 <= i < |data| && TeamKey(data[i]) == team && LastListing(data, i) ==>
      && StandingOf(BuildStandings(data), team) == PositionOf(data[i])
      && (PositionKey in data[i] && IsDigits(data[i][PositionKey]) ==>
            StandingOf(BuildStandings(data), team) == ParseDigits(data[i][PositionKey]))
      && (PositionKey !in data[i] || !IsDigits(data[i][PositionKey]) ==>
            StandingOf(BuildStandings(data), team) == UnknownPosition)
  {
    forall i | 0 <= i < |data| && TeamKey(data[i]) == team && LastListing(data, i)
      ensures StandingOf(BuildStandings(data), team) == PositionOf(data[i])
    {
      LastListingWins(data, i);
    }
  }

  /** One team listed at position "4": that team stands 4th, any other 20th. */
  lemma SingleListing()
    ensures var lookup := BuildStandings([map[TeamIdKey := "t1", PositionKey := "4"]]);
      StandingOf(lookup, "t1") == 4 && StandingOf(lookup, "unknown") == UnknownPosition
  {
    var r := map[TeamIdKey := "t1", PositionKey := "4"];
    assert ParseDigits("4") == 4;
    assert LastListing([r], 0);
    assert ListedTeams([r]) == {"t1"} by {
      assert TeamKey([r][0]) == "t1";
    }
  }
}
